=== FILE: README.md ===
# Tip calculator engine, modelled in Dafny

This project models the logic inside `TipCalculatorApp` of the TipTime
Android app: the four remembered values (the basic/custom mode switch, the
bill text, the tip-percentage text and the number-of-people text), the edit
handlers that change them, the parsing of the texts with neutral defaults,
the tip / total / per-person arithmetic, and the conditions under which the
basic UI and the custom UI show the summary and the per-person breakdown.

Kotlin `Float` is replaced by `real`, so the arithmetic identities are exact.
Kotlin's library conversions are given explicit definitions over strings of
ASCII digits:

- `NumericText.ParseInt` is `String.toIntOrNull()`: optional `+`/`-`, at least
  one digit, `None` outside the 32-bit `Int` range.
- `NumericText.ParseDecimal` is a simplified `String.toFloatOrNull()`: optional
  sign, digits with at most one `.`, at least one digit.
- `NumericText.IsDigitsOnly` is `isDigitsOnly()` (true of the empty text).
- A slider's `Float` value is a non-negative `NumericText.Decimal`
  (`mantissa / 10^scale`). `NumericText.DecimalText` is `Float.toString()` for it.
  `NumericText.IntToString` is `Int.toString()`.

Modules:

- `NumericText` (`numeric_text.dfy`): the conversions above and their round trips.
- `TipEngine` (`tip_engine.dfy`): parse defaults and the calculation.
- `TipState` (`tip_state.dfy`): the state, the handlers, sessions of events and their invariants.
- `Screen` (`screen.dfy`): the visibility rules of both UIs and the rendered result area.
- `Scenarios` (`scenarios.dfy`): concrete inputs run through the model.

A session is a sequence of `TipState.Event`s applied by `TipState.Step`. Only
the basic UI has the tip and people text fields, and only the custom UI has the
sliders. An event on a control that the current mode does not show has no
effect. The bill field and the switch are in both modes.

Facts about the code that the model keeps:

- The basic people field keeps `"0"` and any other digits-only text that parses as an `Int` (MainActivity.kt:162-168), so a stored count of 0 is possible.
- The initial tip text is `""` (MainActivity.kt:74), which parses to the default 0.
- The total is `bill + tip`, with no rounding or truncation of the tip (MainActivity.kt:82).
- The custom UI decides whether to show the summary from the bill text and the people count alone; it never looks at the tip text (MainActivity.kt:337).

## Model

| member | source | states |
|---|---|---|
| `NumericText.ParseInt` | app/src/main/java/com/ezdev/tiptime/MainActivity.kt:79 | A parsed `Int` lies in the 32-bit range and comes from non-empty text made of digits with at most a leading `+` or `-`. A negative result needs a leading `-`. A non-empty digits-only text parses to its decimal value exactly when that value fits in an `Int`. |
| `NumericText.IsDigitsOnly` | app/src/main/java/com/ezdev/tiptime/MainActivity.kt:163 | `isDigitsOnly` holds when every character is an ASCII digit, the empty text included. Such text carries no `+` or `-` sign. |
| `NumericText.DigitsOnlyParsesNonNegative` | app/src/main/java/com/ezdev/tiptime/MainActivity.kt:163 | A digits-only text that `toIntOrNull` accepts is never negative. |
| `NumericText.IntToString` | app/src/main/java/com/ezdev/tiptime/MainActivity.kt:135 | `Int.toString` prints non-empty text, and the text is digits-only exactly when the number is non-negative. |
| `NumericText.IntToStringRoundTrip` | app/src/main/java/com/ezdev/tiptime/MainActivity.kt:135 | Every `Int` printed by `toString` parses back to itself with `toIntOrNull`. |
| `NumericText.ParseIntSign` | app/src/main/java/com/ezdev/tiptime/MainActivity.kt:79 | For non-empty digits, a leading `-` gives the negated value when it is at least `Int.MIN_VALUE` and `null` otherwise. A leading `+` reads the same as no sign. |
| `NumericText.ParseIntNeedsDigits` | app/src/main/java/com/ezdev/tiptime/MainActivity.kt:79 | Text that `toIntOrNull` reads has at least one character after any sign, so a bare `"+"` or `"-"` gives `null`. |
| `NumericText.ParseDecimal` | app/src/main/java/com/ezdev/tiptime/MainActivity.kt:77-78 | A parsed decimal comes from non-empty text made of digits and `.`, with at most a leading `+` or `-`. A negative result needs a leading `-`. A digits-only text parses to its integer value. |
| `NumericText.UnsignedPointed` | app/src/main/java/com/ezdev/tiptime/MainActivity.kt:77-78 | Unsigned `<digits>.<digits>` with at least one digit, either side possibly empty (`".5"`, `"5."`), is read as the whole part plus the fraction scaled by its length. |
| `NumericText.ParseUnsignedDecimalWellFormed` | app/src/main/java/com/ezdev/tiptime/MainActivity.kt:77-78 | Unsigned text that is read as a number holds at least one digit and at most one `.`, so `""`, `"."` and `"1.2.3"` give `null`. With the sign lemmas, the same holds for `"-"`, `"+."` and `"-1.2.3"`. |
| `NumericText.ParseDecimalNegated` | app/src/main/java/com/ezdev/tiptime/MainActivity.kt:77-78 | A leading `-` gives the negation of the unsigned reading of the rest, and `null` when the rest is rejected. So a typed bill can be negative. |
| `NumericText.ParseDecimalPlus` | app/src/main/java/com/ezdev/tiptime/MainActivity.kt:77-78 | A leading `+` gives the unsigned reading of the rest. |
| `NumericText.ParseDecimalUnsigned` | app/src/main/java/com/ezdev/tiptime/MainActivity.kt:77-78 | Text that does not start with a sign is read unsigned. |
| `NumericText.DecimalTextRoundTrip` | app/src/main/java/com/ezdev/tiptime/MainActivity.kt:132 | The text stored for a tip slider position parses back to exactly that position. |
| `NumericText.DecimalText` | app/src/main/java/com/ezdev/tiptime/MainActivity.kt:132 | `Float.toString` of a slider position contains only digits and `.`, and begins and ends with a digit, so it never carries a sign. |
| `NumericText.DecimalTextOneDot` | app/src/main/java/com/ezdev/tiptime/MainActivity.kt:132 | The printed position has exactly one `.`, with a non-empty run of digits on each side. |
| `NumericText.WholeBounds` | app/src/main/java/com/ezdev/tiptime/MainActivity.kt:135 | The whole part kept by `toInt` is the largest whole number not above the slider position. |
| `TipEngine.ParseInputs` | app/src/main/java/com/ezdev/tiptime/MainActivity.kt:77-79 | Parsing never fails. Text that parses gives its parsed value. Unparseable bill or tip text gives 0, and unparseable people text gives 0. |
| `TipState.Parsed` | app/src/main/java/com/ezdev/tiptime/MainActivity.kt:77-79 | An empty text stands for 0 in each field. A non-zero people count is the value `toIntOrNull` reads from the people text. A digits-only people text never gives a negative count. |
| `TipEngine.Calculate` | app/src/main/java/com/ezdev/tiptime/MainActivity.kt:81-84 | tip·100 = bill·percent and total = bill + tip. With people > 0, per-person tip · people = tip and per-person total · people = total. With people ≤ 0, both per-person amounts are 0. |
| `TipEngine.TipWithinBill` | app/src/main/java/com/ezdev/tiptime/MainActivity.kt:81-82 | For bill ≥ 0 and percent in [0, 100]: 0 ≤ tip ≤ bill and bill ≤ total ≤ 2·bill. |
| `TipEngine.ShareAtMostWhole` | app/src/main/java/com/ezdev/tiptime/MainActivity.kt:83-84 | With at least one person, each per-person amount is non-negative and at most the whole tip or total. |
| `TipState.ValidateTipPercent` | app/src/main/java/com/ezdev/tiptime/MainActivity.kt:153-159 | The stored tip text is the edited text or `""`, nothing else. Kept text is a number in [0, 100], and such a number is always kept. |
| `TipState.ValidatePeople` | app/src/main/java/com/ezdev/tiptime/MainActivity.kt:162-168 | The stored people text is the edited text or `""`. Kept text is digits-only and parses to an `Int` ≥ 0, and every such text is kept. |
| `TipState.ValidatorsIdempotent` | app/src/main/java/com/ezdev/tiptime/MainActivity.kt:153-168 | Re-validating a stored text leaves it unchanged. |
| `TipState.ToggleMode` | app/src/main/java/com/ezdev/tiptime/MainActivity.kt:118-120 | The switch flips `isCustomUi` and leaves all three texts unchanged. |
| `TipState.ToggleTwiceIsIdentity` | app/src/main/java/com/ezdev/tiptime/MainActivity.kt:118-120 | Toggling twice restores the state. |
| `TipState.BillChanged` | app/src/main/java/com/ezdev/tiptime/MainActivity.kt:149-151 | A bill edit stores the text verbatim, with no validation, and changes nothing else. |
| `TipState.BasicTipPercentChanged` | app/src/main/java/com/ezdev/tiptime/MainActivity.kt:152-160 | Basic UI: the tip text becomes the edit exactly when the edit is empty or a percentage in [0, 100], and `""` otherwise. Only the tip field changes. |
| `TipState.BasicPeopleChanged` | app/src/main/java/com/ezdev/tiptime/MainActivity.kt:161-169 | Basic UI: the people text becomes the edit exactly when the edit is empty or digits forming an `Int`, and `""` otherwise. Only the people field changes. |
| `TipState.CustomTipPercentChanged` | app/src/main/java/com/ezdev/tiptime/MainActivity.kt:131-133 | Custom UI: the stored tip text parses to the slider position, so the parsed tip percentage equals the position. Only the tip field changes. |
| `TipState.SliderToInt` | app/src/main/java/com/ezdev/tiptime/MainActivity.kt:135 | `Float.toInt` of a non-negative position is its floor, saturated at `Int.MAX_VALUE`. |
| `TipState.SliderPeopleAtMostTen` | app/src/main/java/com/ezdev/tiptime/MainActivity.kt:139 | A people slider position within 0..10 gives between 0 and 10 people. |
| `TipState.CustomPeopleChanged` | app/src/main/java/com/ezdev/tiptime/MainActivity.kt:134-136 | Custom UI: the stored people text is digits-only and parses to the truncated slider position. Only the people field changes. |
| `TipState.Step` | app/src/main/java/com/ezdev/tiptime/MainActivity.kt:116-169 | A bill edit stores its text. In the basic UI, typed tip and people edits store the validator's result. In the custom UI, slides store text that parses to the slider's tip value or truncated people count. Typed edits in the custom UI and slides in the basic UI change nothing. Only the switch changes the mode, and each event changes only its own field. |
| `TipState.InitialValid` | app/src/main/java/com/ezdev/tiptime/MainActivity.kt:72-75 | The initial state `false`, `""`, `""`, `"1"` satisfies both text invariants. |
| `TipState.StepKeepsPeopleTextValid` | app/src/main/java/com/ezdev/tiptime/MainActivity.kt:131-168 | Every handler keeps the people text empty, or digits that parse as an `Int`. |
| `TipState.StepKeepsTipTextValid` | app/src/main/java/com/ezdev/tiptime/MainActivity.kt:131-159 | Every handler keeps the tip text empty or a percentage in [0, 100], when the tip slider stays in its range. |
| `TipState.RunKeepsPeopleTextValid` | app/src/main/java/com/ezdev/tiptime/MainActivity.kt:131-168 | Any sequence of actions keeps the stored people text empty or unsigned digits. |
| `TipState.RunKeepsTipTextValid` | app/src/main/java/com/ezdev/tiptime/MainActivity.kt:152-159 | Any sequence of actions with in-range sliders keeps the tip text empty or a percentage in [0, 100]. |
| `TipState.ReachableInputsInRange` | app/src/main/java/com/ezdev/tiptime/MainActivity.kt:72-79 | In every session from the initial state with sliders in range, the parsed people count is ≥ 0 and the parsed tip percentage is in [0, 100]. |
| `TipState.ReachableTipWithinBill` | app/src/main/java/com/ezdev/tiptime/MainActivity.kt:77-82 | In every such session with sliders in range, a non-negative bill gives 0 ≤ tip ≤ bill ≤ total. |
| `Screen.BreakdownImpliesSummary` | app/src/main/java/com/ezdev/tiptime/MainActivity.kt:225-236 | In both UIs, a shown per-person breakdown implies a shown summary. |
| `Screen.BasicShowsSummary` | app/src/main/java/com/ezdev/tiptime/MainActivity.kt:225-226 | Basic UI: the summary needs bill, tip and people texts all non-empty and the people text to parse to an `Int` above 0. The count used by the calculation is then positive. |
| `Screen.BasicShowsBreakdown` | app/src/main/java/com/ezdev/tiptime/MainActivity.kt:236 | Basic UI: the breakdown needs the summary and a people text that parses to an `Int` above 1. The count used by the calculation is then above 1. |
| `Screen.CustomShowsSummary` | app/src/main/java/com/ezdev/tiptime/MainActivity.kt:337 | Custom UI: the summary needs a non-empty bill text and a parsed people count above 0. The people text is then non-empty and `toIntOrNull` reads that count from it. |
| `Screen.CustomShowsBreakdown` | app/src/main/java/com/ezdev/tiptime/MainActivity.kt:346 | Custom UI: the breakdown needs the summary and a parsed people count above 1. The people text then passes the basic UI's own breakdown test. |
| `Screen.BasicIsCustomPlusTip` | app/src/main/java/com/ezdev/tiptime/MainActivity.kt:225-346 | The basic UI shows the summary or breakdown exactly when the custom UI would and the tip text is non-empty. |
| `Screen.SwitchToCustomKeepsResults` | app/src/main/java/com/ezdev/tiptime/MainActivity.kt:123-127 | Switching from basic to custom never hides a shown summary or breakdown. |
| `Screen.CustomSummaryWithoutTip` | app/src/main/java/com/ezdev/tiptime/MainActivity.kt:337 | With bill `"10"`, tip `""` and people `"2"`, the custom UI shows the summary and the basic UI does not. |
| `Screen.ShownSummaryHasPeople` | app/src/main/java/com/ezdev/tiptime/MainActivity.kt:225-226 | A shown summary means the people text parses to a positive count. By `TipEngine.Calculate`, the per-person amounts then split exactly and are never the zero fallback. |
| `Screen.Render` | app/src/main/java/com/ezdev/tiptime/MainActivity.kt:224-363 | Basic UI (lines 224-256) and custom UI (lines 336-363). Basic UI: the summary is shown exactly when the bill, tip and people texts are all non-empty and the people count is positive. Custom UI: the summary is shown exactly when the bill text is non-empty and the people count is positive. In both UIs the per-person block is shown exactly when the summary is shown and there is more than one person. Each block shows the formatted computed amounts. |
| `Screen.RenderDependsOnParsedValues` | app/src/main/java/com/ezdev/tiptime/MainActivity.kt:77-90 | Two states render alike when they share the mode, the same empty fields and the same parsed numbers. |
| `Scenarios.TipPercentValidation` | app/src/main/java/com/ezdev/tiptime/MainActivity.kt:153-159 | `"45"` is kept and `"150"` clears the tip field. |
| `Scenarios.PeopleValidation` | app/src/main/java/com/ezdev/tiptime/MainActivity.kt:162-168 | `"3"` and `"0"` are kept. `"12a"` is cleared. `"+3"` is cleared although `toIntOrNull` reads it as 3. |
| `Scenarios.BillHundred` | app/src/main/java/com/ezdev/tiptime/MainActivity.kt:77 | `"100.00"` parses to 100. |
| `Scenarios.UnsignedTwoPointFive` | app/src/main/java/com/ezdev/tiptime/MainActivity.kt:77 | Unsigned `"2.5"` reads as 2.5. |
| `Scenarios.TwentyAndTwo` | app/src/main/java/com/ezdev/tiptime/MainActivity.kt:78-79 | `"20"` reads as the percentage 20 and `"2"` as two people. |
| `Scenarios.NegativeBill` | app/src/main/java/com/ezdev/tiptime/MainActivity.kt:77 | The bill text, which the edit handler at line 150 stores unvalidated, can be `"-2.5"`, and it reads as a bill of -2.5. |
| `Scenarios.ParsedHundredTwentyTwo` | app/src/main/java/com/ezdev/tiptime/MainActivity.kt:77-79 | Texts `"100.00"`, `"20"` and `"2"` parse to 100, 20 and 2. |
| `Scenarios.HundredTwentyPercentTwoPeople` | app/src/main/java/com/ezdev/tiptime/MainActivity.kt:81-84 | Bill 100.00, 20 % and two people give tip 20, total 120, and 10 and 60 per person, with the breakdown shown. |
| `Scenarios.OnePersonHasNoBreakdown` | app/src/main/java/com/ezdev/tiptime/MainActivity.kt:236 | Bill 50.00, 15 % and one person show the summary but not the breakdown. |
| `Scenarios.SliderRestoresPeople` | app/src/main/java/com/ezdev/tiptime/MainActivity.kt:134-136 | After an invalid typed people count clears the field, switching to custom and sliding to 4.0 stores `"4"`. |

## Left out

- Compose layout, widgets, modifiers, theming, `Activity.onCreate` and the `println` debug lines (MainActivity.kt:53-62, 91-115, 170-223, 228-234, 237-245, 257-334, 338-344, 347-472): presentation and console output with no effect on the state.
- `ui/theme/Type.kt`: static typography values with no behaviour.
- `NumberFormat.getCurrencyInstance().format` (MainActivity.kt:86-89, 305): locale-dependent library formatting. It is the parameter `format` of `Screen.Render`.
- Kotlin `Float` rounding and range: amounts are `real`, so the per-person identities hold exactly, not up to rounding. Rounding also moves the basic tip validator's boundary: `"100.000001".toFloat()` is `100f`, so the app keeps that text (MainActivity.kt:154), while the model reads it as the real 100.000001 and clears the field. Text beyond the `Float` range becomes `Infinity` in the app; the model reads every decimal exactly.
- NumericText.ParseDecimal: exponents, `NaN`, `Infinity`, hexadecimal forms, `f`/`d` suffixes and surrounding whitespace that `toFloatOrNull` also accepts are not modelled. It reads only a sign and plain decimal digits.
- NumericText.IsDigitsOnly: non-ASCII Unicode digits, which `isDigitsOnly` and `toIntOrNull` also accept, are not modelled.
- NumericText.DecimalText: `Float.toString` switches to scientific notation below 10^-3 and at 10^7 or above, and prints the shortest digits that identify the `Float`. The model always prints plain `whole.fraction` with the position's own digits, so it can keep trailing zeros. The parsed value is the same either way.
- Material `Slider` step snapping (19 steps over 0..100, 9 steps over 0..10; MainActivity.kt:137-140): library behaviour. Slider positions are any non-negative decimals, and the range is stated by `TipState.InSliderRange` where a property needs it.
- TipState.SliderToInt: only models `Float.toInt` on the non-negative values a slider starting at 0 can produce, so there is no truncation toward zero for negative values and no `NaN` case.

=== FILE: numeric_text.dfy ===
/**
  Text <-> number conversions used by the tip calculator.

  The app relies on Kotlin's `String.toIntOrNull`, `String.toFloatOrNull`,
  `CharSequence.isDigitsOnly`, `Int.toString` and `Float.toString`. This module
  gives each of them an explicit definition over `string` (ASCII digits only):
  - `ParseInt` follows `toIntOrNull` in radix 10: an optional `+` or `-`, at
    least one digit, and `None` when the value leaves the 32-bit `Int` range;
  - `ParseDecimal` is a simplified `toFloatOrNull`: an optional sign, then
    digits with at most one decimal point and at least one digit, read exactly
    as a `real`;
  - `IntToString` and `DecimalText` are the printers the sliders use, and each
    is proved to parse back to the value it printed.
 */
module NumericText {

  datatype Option<+T> = None | Some(value: T) {
    /** The wrapped value, or `default` when there is none (Kotlin's `?:`). */
    function GetOr(default: T): T {
      match this
      case Some(v) => v
      case None => default
    }
  }

  /** Bounds of Kotlin's 32-bit `Int`. */
  const IntMin: int := -0x8000_0000
  const IntMax: int := 0x7FFF_FFFF

  function Pow10(n: nat): (r: nat)
    ensures r >= 1
  {
    if n == 0 then 1 else 10 * Pow10(n - 1)
  }

  // ---------------------------------------------------------------------------
  // Digits

  predicate IsDigit(c: char) {
    '0' <= c <= '9'
  }

  /** `isDigitsOnly`, restricted to ASCII digits; true of the empty string. */
  function IsDigitsOnly(s: string): (r: bool)
    ensures r ==> !HasMinus(s) && Unsigned(s) == s
  {
    forall i :: 0 <= i < |s| ==> IsDigit(s[i])
  }

  function DigitValue(c: char): (d: nat)
    requires IsDigit(c)
    ensures d < 10
  {
    c as int - '0' as int
  }

  function DigitChar(d: nat): (c: char)
    requires d < 10
    ensures IsDigit(c) && DigitValue(c) == d
  {
    ('0' as int + d) as char
  }

  /** The value of a digit string read in base 10, most significant digit first. */
  function DigitsValue(s: string): nat
    requires IsDigitsOnly(s)
  {
    if |s| == 0 then 0 else 10 * DigitsValue(s[..|s| - 1]) + DigitValue(s[|s| - 1])
  }

  lemma DigitsValueAppend(a: string, c: char)
    requires IsDigitsOnly(a) && IsDigit(c)
    ensures IsDigitsOnly(a + [c])
    ensures DigitsValue(a + [c]) == 10 * DigitsValue(a) + DigitValue(c)
  {
    assert (a + [c])[..|a|] == a;
  }

  /** The shortest decimal text of `n` (what `Int.toString` prints for n >= 0). */
  function NatToDigits(n: nat): (r: string)
    ensures |r| > 0 && IsDigitsOnly(r)
    ensures DigitsValue(r) == n
  {
    if n < 10 then
      [DigitChar(n)]
    else
      var prefix := NatToDigits(n / 10);
      DigitsValueAppend(prefix, DigitChar(n % 10));
      prefix + [DigitChar(n % 10)]
  }

  /** Exactly `width` digits spelling `n`, with leading zeros. */
  function PadDigits(n: nat, width: nat): (r: string)
    requires n < Pow10(width)
    ensures |r| == width && IsDigitsOnly(r)
    ensures DigitsValue(r) == n
  {
    if width == 0 then
      ""
    else
      var prefix := PadDigits(n / 10, width - 1);
      DigitsValueAppend(prefix, DigitChar(n % 10));
      prefix + [DigitChar(n % 10)]
  }

  // ---------------------------------------------------------------------------
  // Integers

  /** Whether the text starts with a minus sign. */
  predicate HasMinus(s: string) {
    |s| > 0 && s[0] == '-'
  }

  /** The text after a leading '+' or '-', or the whole text when it has no sign. */
  function Unsigned(s: string): (body: string)
    ensures body == s || (|s| > 0 && s[0] in "+-" && body == s[1..])
    ensures |s| > 0 && IsDigit(s[0]) ==> body == s
  {
    if |s| > 0 && s[0] in "+-" then s[1..] else s
  }

  /** Kotlin's `String.toIntOrNull()` in radix 10, on ASCII digits. */
  function ParseInt(s: string): (r: Option<int>)
    ensures r.Some? ==> IntMin <= r.value <= IntMax
    ensures r.Some? ==> |s| > 0
    ensures r.Some? ==> forall i :: 0 <= i < |s| ==> IsDigit(s[i]) || (i == 0 && s[i] in "+-")
    ensures r.Some? && r.value < 0 ==> s[0] == '-'
    ensures IsDigitsOnly(s) && |s| > 0 ==>
              r == (if DigitsValue(s) <= IntMax then Some(DigitsValue(s) as int) else None)
  {
    if |s| == 0 then
      None
    else
      var body := Unsigned(s);
      if |body| == 0 || !IsDigitsOnly(body) then
        None
      else
        assert forall i :: 1 <= i < |s| ==> IsDigit(s[i]) by {
          if body != s {
            assert forall i :: 1 <= i < |s| ==> s[i] == body[i - 1];
          }
        }
        var v := if HasMinus(s) then -(DigitsValue(body) as int) else DigitsValue(body) as int;
        if IntMin <= v <= IntMax then Some(v) else None
  }

  /** A sign alone is not a number: something must follow it. */
  lemma ParseIntNeedsDigits(s: string)
    requires ParseInt(s).Some?
    ensures |Unsigned(s)| > 0
  {
  }

  /** A digits-only text never parses to a negative number. */
  lemma DigitsOnlyParsesNonNegative(s: string)
    requires IsDigitsOnly(s) && ParseInt(s).Some?
    ensures 0 <= ParseInt(s).value <= IntMax
  {
  }

  /** Kotlin's `Int.toString()`. */
  function IntToString(n: int): (r: string)
    ensures |r| > 0
    ensures IsDigitsOnly(r) <==> n >= 0
  {
    if n < 0 then
      var r := "-" + NatToDigits(-n);
      assert !IsDigit(r[0]);
      r
    else
      NatToDigits(n)
  }

  /** `toIntOrNull` reads back every `Int` that `toString` prints. */
  lemma IntToStringRoundTrip(n: int)
    requires IntMin <= n <= IntMax
    ensures ParseInt(IntToString(n)) == Some(n)
  {
    var text := IntToString(n);
    if n < 0 {
      var digits := NatToDigits(-n);
      assert text[1..] == digits;
      assert Unsigned(text) == digits && HasMinus(text);
    } else {
      assert IsDigitsOnly(text) && DigitsValue(text) == n;
    }
  }

  // ---------------------------------------------------------------------------
  // Decimals

  /** Index of the first '.' in `s`, or `|s|` when there is none. */
  function DotIndex(s: string): (k: nat)
    ensures k <= |s|
    ensures k < |s| ==> s[k] == '.'
    ensures forall i :: 0 <= i < k ==> s[i] != '.'
  {
    if |s| == 0 then 0
    else if s[0] == '.' then 0
    else 1 + DotIndex(s[1..])
  }

  /** An unsigned decimal: digits, optionally a '.' and more digits, at least one digit in all. */
  function ParseUnsignedDecimal(s: string): (r: Option<real>)
    ensures r.Some? ==> r.value >= 0.0
    ensures r.Some? ==> forall i :: 0 <= i < |s| ==> IsDigit(s[i]) || s[i] == '.'
    ensures IsDigitsOnly(s) && |s| > 0 ==> r == Some(DigitsValue(s) as real)
  {
    var k := DotIndex(s);
    var whole := s[..k];
    var frac := if k < |s| then s[k + 1..] else "";
    if |whole| + |frac| == 0 || !IsDigitsOnly(whole) || !IsDigitsOnly(frac) then
      None
    else
      assert k == |s| ==> whole == s;
      assert forall i :: 0 <= i < |s| ==> IsDigit(s[i]) || s[i] == '.' by {
        assert forall i :: 0 <= i < k ==> s[i] == whole[i];
        assert forall i :: k < i < |s| ==> s[i] == frac[i - k - 1];
      }
      Some(PointedValue(whole, frac))
  }

  /** The value of `whole.frac`. */
  function PointedValue(whole: string, frac: string): real
    requires IsDigitsOnly(whole) && IsDigitsOnly(frac)
  {
    DigitsValue(whole) as real + DigitsValue(frac) as real / Pow10(|frac|) as real
  }

  /** A simplified `String.toFloatOrNull()`: an optional sign and an unsigned decimal, read exactly. */
  function ParseDecimal(s: string): (r: Option<real>)
    ensures r.Some? ==> |s| > 0
    ensures r.Some? ==> forall i :: 0 <= i < |s| ==> IsDigit(s[i]) || s[i] == '.' || (i == 0 && s[i] in "+-")
    ensures r.Some? && r.value < 0.0 ==> s[0] == '-'
    ensures IsDigitsOnly(s) && |s| > 0 ==> r == Some(DigitsValue(s) as real)
  {
    if |s| == 0 then
      None
    else
      var body := Unsigned(s);
      match ParseUnsignedDecimal(body)
      case None => None
      case Some(v) =>
        assert forall i :: 1 <= i < |s| ==> IsDigit(s[i]) || s[i] == '.' by {
          if body != s {
            assert forall i :: 1 <= i < |s| ==> s[i] == body[i - 1];
          }
        }
        Some(if HasMinus(s) then -v else v)
  }

  /**
    A non-negative slider position with a finite decimal expansion:
    `mantissa / 10^scale`. A slider's `Float` value is modelled by the decimal
    that `Float.toString` prints for it.
   */
  datatype Decimal = Decimal(mantissa: nat, scale: nat) {
    function Value(): real {
      mantissa as real / Pow10(scale) as real
    }

    /** The whole-number part, which is what Kotlin's `Float.toInt()` keeps. */
    function Whole(): nat {
      Quotient(mantissa, Pow10(scale))
    }

    /** The digits after the point, as a number below `10^scale`. */
    function Fraction(): (f: nat)
      ensures f < Pow10(scale)
      ensures mantissa == Whole() * Pow10(scale) + f
    {
      mantissa - Whole() * Pow10(scale)
    }
  }

  /** Natural-number division, with the bounds that characterise it. */
  function Quotient(a: nat, b: nat): (q: nat)
    requires b >= 1
    ensures q * b <= a < q * b + b
  {
    a / b
  }

  /** `Float.toString` for a slider position: whole digits, '.', at least one fractional digit. */
  function DecimalText(d: Decimal): (r: string)
    ensures |r| > 0 && IsDigit(r[0]) && IsDigit(r[|r| - 1])
    ensures forall i :: 0 <= i < |r| ==> IsDigit(r[i]) || r[i] == '.'
  {
    var whole, frac := NatToDigits(d.Whole()), FractionDigits(d);
    var r := whole + "." + frac;
    assert forall i :: 0 <= i < |whole| ==> r[i] == whole[i];
    assert forall i :: |whole| < i < |r| ==> r[i] == frac[i - |whole| - 1];
    r
  }

  /** The digits after the point: exactly `scale` of them, or a single "0" for a whole position. */
  function FractionDigits(d: Decimal): (r: string)
    ensures |r| > 0 && IsDigitsOnly(r)
    ensures d.scale == 0 ==> |r| == 1 && DigitsValue(r) == 0 && d.Fraction() == 0
    ensures d.scale > 0 ==> |r| == d.scale && DigitsValue(r) == d.Fraction()
  {
    if d.scale == 0 then
      assert "0"[..0] == "";
      "0"
    else
      PadDigits(d.Fraction(), d.scale)
  }

  /**
    Unsigned text of the form `<digits>.<digits>` with at least one digit,
    either side of the point possibly empty (".5", "5."), is read as the whole
    part plus the scaled fraction.
   */
  lemma UnsignedPointed(whole: string, frac: string)
    requires IsDigitsOnly(whole) && IsDigitsOnly(frac) && |whole| + |frac| > 0
    ensures ParseUnsignedDecimal(whole + "." + frac) == Some(PointedValue(whole, frac))
  {
    var s := whole + "." + frac;
    assert forall i :: 0 <= i < |whole| ==> s[i] == whole[i];
    var k := DotIndex(s);
    assert k == |whole| by {
      assert s[|whole|] == '.';
    }
    assert s[..k] == whole;
    assert s[k + 1..] == frac;
  }

  /**
    What an unsigned decimal must look like to be read: at least one digit,
    and no second '.'. So ".", "" and "1.2.3" are rejected.
   */
  lemma ParseUnsignedDecimalWellFormed(s: string)
    requires ParseUnsignedDecimal(s).Some?
    ensures exists i :: 0 <= i < |s| && IsDigit(s[i])
    ensures forall i, j :: 0 <= i < j < |s| && s[i] == '.' ==> s[j] != '.'
  {
    var k := DotIndex(s);
    var whole := s[..k];
    var frac := if k < |s| then s[k + 1..] else "";
    assert forall i :: k < i < |s| ==> s[i] == frac[i - k - 1];
    if |whole| > 0 {
      assert IsDigit(whole[0]);
    } else {
      assert IsDigit(s[k + 1]);
    }
  }

  /** A leading '-' negates the unsigned reading of the rest, and rejects what it rejects. */
  lemma ParseDecimalNegated(t: string)
    ensures ParseDecimal("-" + t)
         == (if ParseUnsignedDecimal(t).Some? then Some(-ParseUnsignedDecimal(t).value) else None)
  {
    assert ("-" + t)[1..] == t;
    assert Unsigned("-" + t) == t && HasMinus("-" + t);
  }

  /** A leading '+' reads the rest unsigned. */
  lemma ParseDecimalPlus(t: string)
    ensures ParseDecimal("+" + t) == ParseUnsignedDecimal(t)
  {
    assert ("+" + t)[1..] == t;
    assert Unsigned("+" + t) == t && !HasMinus("+" + t);
  }

  /** Text without a sign is read unsigned. */
  lemma ParseDecimalUnsigned(t: string)
    requires |t| > 0 && t[0] !in "+-"
    ensures ParseDecimal(t) == ParseUnsignedDecimal(t)
  {
    assert Unsigned(t) == t && !HasMinus(t);
  }

  /**
    A leading '-' negates the digits, and the result must still fit an `Int`
    (so "-2147483648" is read but "2147483648" is not); a leading '+' changes
    nothing.
   */
  lemma ParseIntSign(t: string)
    requires |t| > 0 && IsDigitsOnly(t)
    ensures ParseInt("-" + t) == (if DigitsValue(t) <= -IntMin then Some(-(DigitsValue(t) as int)) else None)
    ensures ParseInt("+" + t) == ParseInt(t)
  {
    assert ("-" + t)[1..] == t;
    assert Unsigned("-" + t) == t && HasMinus("-" + t);
    assert ("+" + t)[1..] == t;
    assert Unsigned("+" + t) == t && !HasMinus("+" + t);
  }

  lemma WholePlusFraction(q: nat, f: nat, p: nat, m: nat)
    requires p >= 1 && m == q * p + f
    ensures q as real + f as real / p as real == m as real / p as real
  {
    assert (m as real) == (q as real) * (p as real) + (f as real);
  }

  lemma FractionBelowOne(f: nat, p: nat)
    requires f < p
    ensures 0.0 <= f as real / p as real < 1.0
  {
    var x := f as real / p as real;
    assert x * p as real == f as real;
  }

  /** A slider position lies between its whole part and the next whole number. */
  lemma WholeBounds(d: Decimal)
    ensures d.Whole() as real <= d.Value() < (d.Whole() + 1) as real
  {
    WholePlusFraction(d.Whole(), d.Fraction(), Pow10(d.scale), d.mantissa);
    FractionBelowOne(d.Fraction(), Pow10(d.scale));
  }

  /** The printed position has exactly one '.', with digits before and after it. */
  lemma DecimalTextOneDot(d: Decimal)
    ensures var r := DecimalText(d);
      exists k :: 0 < k < |r| - 1 && r[k] == '.' && IsDigitsOnly(r[..k]) && IsDigitsOnly(r[k + 1..])
  {
    var whole, frac := NatToDigits(d.Whole()), FractionDigits(d);
    var r := whole + "." + frac;
    assert DecimalText(d) == r;
    assert r[..|whole|] == whole && r[|whole| + 1..] == frac;
  }

  /** `toFloatOrNull` reads back exactly the slider position that `DecimalText` printed. */
  lemma DecimalTextRoundTrip(d: Decimal)
    ensures ParseDecimal(DecimalText(d)) == Some(d.Value())
  {
    var whole := NatToDigits(d.Whole());
    var frac := FractionDigits(d);
    assert DecimalText(d) == whole + "." + frac;
    UnsignedPointed(whole, frac);
    assert (whole + "." + frac)[0] == whole[0];
    ParseDecimalUnsigned(whole + "." + frac);
    assert PointedValue(whole, frac) == d.Value() by {
      if d.scale == 0 {
        assert d.Whole() == d.mantissa;
      } else {
        WholePlusFraction(d.Whole(), d.Fraction(), Pow10(d.scale), d.mantissa);
      }
    }
  }
}

=== FILE: scenarios.dfy ===
/**
  Concrete sessions: particular texts run through the validators, the
  calculation and the visibility rules.
 */
module Scenarios {
  import opened NumericText
  import opened TipState
  import TipEngine
  import Screen

  lemma DigitsOf2()
    ensures DigitsValue("2") == 2
  {
    assert "2"[..0] == "";
  }

  /** "45" is a percentage and is kept; "150" is out of range and clears the field. */
  lemma TipPercentValidation()
    ensures ValidateTipPercent("45") == "45"
    ensures ValidateTipPercent("150") == ""
  {
    assert "45"[..1] == "4" && "4"[..0] == "";
    assert "150"[..2] == "15" && "15"[..1] == "1" && "1"[..0] == "";
  }

  /**
    "3" and "0" are kept; "12a" is not a number and "+3", although `toIntOrNull`
    reads it as 3, is not digits only.
   */
  lemma PeopleValidation()
    ensures ValidatePeople("3") == "3"
    ensures ValidatePeople("0") == "0"
    ensures ValidatePeople("12a") == ""
    ensures ParseInt("+3") == Some(3) && ValidatePeople("+3") == ""
  {
    assert "3"[..0] == "" && "0"[..0] == "";
    assert !IsDigit("12a"[2]);
    assert !IsDigit("+3"[0]);
    assert "+3"[1..] == "3";
  }

  lemma BillHundred()
    ensures ParseDecimal("100.00") == Some(100.0)
  {
    var bill := "100.00";
    assert DotIndex(bill) == 3 by {
      assert bill[1..] == "00.00" && bill[2..] == "0.00" && bill[3..] == ".00";
    }
    assert bill[..3] == "100" && bill[4..] == "00";
    assert DigitsValue("100") == 100 by {
      assert "100"[..2] == "10" && "10"[..1] == "1" && "1"[..0] == "";
    }
    assert DigitsValue("00") == 0 by {
      assert "00"[..1] == "0" && "0"[..0] == "";
    }
  }

  lemma UnsignedTwoPointFive()
    ensures ParseUnsignedDecimal("2.5") == Some(2.5)
  {
    assert "2.5" == "2" + "." + "5";
    UnsignedPointed("2", "5");
    assert DigitsValue("5") == 5 by {
      assert "5"[..0] == "";
    }
    DigitsOf2();
  }

  /** The bill field is not validated: "-2.5" is kept and read as a negative bill. */
  lemma NegativeBill()
    ensures ParseDecimal("-2.5") == Some(-2.5)
    ensures Parsed(State(false, "-2.5", "10", "1")).bill == -2.5
  {
    assert "-2.5" == "-" + "2.5";
    ParseDecimalNegated("2.5");
    UnsignedTwoPointFive();
  }

  lemma TwentyAndTwo()
    ensures ParseDecimal("20") == Some(20.0)
    ensures ParseInt("2") == Some(2)
  {
    assert DigitsValue("20") == 20 by {
      assert "20"[..1] == "2";
      DigitsOf2();
    }
    DigitsOf2();
  }

  lemma ParsedHundredTwentyTwo()
    ensures Parsed(State(false, "100.00", "20", "2")) == TipEngine.Inputs(100.0, 20.0, 2)
  {
    BillHundred();
    TwentyAndTwo();
    var s := State(false, "100.00", "20", "2");
    assert Parsed(s) == TipEngine.ParseInputs("100.00", "20", "2");
  }

  /** Bill 100.00, tip 20 %, two people: tip 20, total 120, and 10 and 60 each, with the breakdown shown. */
  lemma HundredTwentyPercentTwoPeople()
    ensures Screen.Results(State(false, "100.00", "20", "2"))
         == TipEngine.Calculation(20.0, 120.0, 10.0, 60.0)
    ensures Screen.ShowsBreakdown(State(false, "100.00", "20", "2"))
  {
    ParsedHundredTwentyTwo();
    var s := State(false, "100.00", "20", "2");
    assert Screen.Results(s) == TipEngine.Calculate(TipEngine.Inputs(100.0, 20.0, 2));
    DigitsOf2();
  }

  /** Bill 50.00, tip 15 %, one person: the summary is shown but the breakdown is not. */
  lemma OnePersonHasNoBreakdown()
    ensures Screen.ShowsSummary(State(false, "50.00", "15", "1"))
    ensures !Screen.ShowsBreakdown(State(false, "50.00", "15", "1"))
  {
    assert "1"[..0] == "";
  }

  /** From the initial state, typing "abc" as the people count and then sliding in the custom UI gives digits again. */
  lemma SliderRestoresPeople()
    ensures Run(Initial, [PeopleTyped("abc"), SwitchToggled, PeopleSlid(Decimal(40, 1))]).numberOfPeopleInput == "4"
  {
    var s1 := Step(Initial, PeopleTyped("abc"));
    assert !IsDigit("abc"[0]);
    assert s1.numberOfPeopleInput == "";
    var s2 := Step(s1, SwitchToggled);
    var s3 := Step(s2, PeopleSlid(Decimal(40, 1)));
    assert Decimal(40, 1).Whole() == 4;
    assert [PeopleTyped("abc"), SwitchToggled, PeopleSlid(Decimal(40, 1))][1..] == [SwitchToggled, PeopleSlid(Decimal(40, 1))];
    assert [SwitchToggled, PeopleSlid(Decimal(40, 1))][1..] == [PeopleSlid(Decimal(40, 1))];
  }
}

=== FILE: screen.dfy ===
/**
  What the two UIs show for a given state.

  Both UIs show a summary (tip and total) and, below it, a per-person
  breakdown, each behind a condition. The basic UI tests the raw texts; the
  custom UI tests the bill text and the parsed number of people, which the app
  hands to it as a `Float`. Currency formatting (`NumberFormat`) is a
  parameter `format`, since its output depends on the device locale.
 */
module Screen {
  import opened NumericText
  import opened TipState
  import TipEngine

  /** The amounts derived from a state's texts. */
  function Results(s: State): TipEngine.Calculation {
    TipEngine.Calculate(Parsed(s))
  }

  /** Basic UI: all three fields filled in and the people text a positive `Int`. */
  function BasicShowsSummary(s: State): (r: bool)
    ensures r ==> Parsed(s).numberOfPeople > 0
  {
    && s.billInput != ""
    && s.tipPercentInput != ""
    && s.numberOfPeopleInput != ""
    && ParseInt(s.numberOfPeopleInput).Some?
    && ParseInt(s.numberOfPeopleInput).value > 0
  }

  /** Basic UI: inside the summary row, the breakdown needs more than one person. */
  function BasicShowsBreakdown(s: State): (r: bool)
    ensures r ==> Parsed(s).numberOfPeople > 1
  {
    && BasicShowsSummary(s)
    && ParseInt(s.numberOfPeopleInput).Some?
    && ParseInt(s.numberOfPeopleInput).value > 1
  }

  /** Custom UI: a bill text and a positive number of people; the tip text is not consulted. */
  function CustomShowsSummary(s: State): (r: bool)
    ensures r ==> s.numberOfPeopleInput != "" && ParseInt(s.numberOfPeopleInput) == Some(Parsed(s).numberOfPeople)
  {
    s.billInput != "" && Parsed(s).numberOfPeople > 0
  }

  /** Custom UI: inside the summary, the breakdown needs more than one person. */
  function CustomShowsBreakdown(s: State): (r: bool)
    ensures r ==> ParseInt(s.numberOfPeopleInput).Some? && ParseInt(s.numberOfPeopleInput).value > 1
  {
    CustomShowsSummary(s) && Parsed(s).numberOfPeople > 1
  }

  predicate ShowsSummary(s: State) {
    if s.isCustomUi then CustomShowsSummary(s) else BasicShowsSummary(s)
  }

  predicate ShowsBreakdown(s: State) {
    if s.isCustomUi then CustomShowsBreakdown(s) else BasicShowsBreakdown(s)
  }

  /** A shown breakdown is always inside a shown summary, in either UI. */
  lemma BreakdownImpliesSummary(s: State)
    ensures BasicShowsBreakdown(s) ==> BasicShowsSummary(s)
    ensures CustomShowsBreakdown(s) ==> CustomShowsSummary(s)
    ensures ShowsBreakdown(s) ==> ShowsSummary(s)
  {
  }

  /**
    The two UIs agree except for the tip text: the basic UI shows exactly what
    the custom UI shows, provided a tip percentage has been entered.
   */
  lemma BasicIsCustomPlusTip(s: State)
    ensures BasicShowsSummary(s) <==> CustomShowsSummary(s) && s.tipPercentInput != ""
    ensures BasicShowsBreakdown(s) <==> CustomShowsBreakdown(s) && s.tipPercentInput != ""
  {
  }

  /** Switching from the basic to the custom UI never hides a summary or a breakdown. */
  lemma SwitchToCustomKeepsResults(s: State)
    requires !s.isCustomUi
    ensures ShowsSummary(s) ==> ShowsSummary(ToggleMode(s))
    ensures ShowsBreakdown(s) ==> ShowsBreakdown(ToggleMode(s))
  {
    BasicIsCustomPlusTip(s);
  }

  /** The custom UI shows a summary without any tip percentage entered; the basic UI does not. */
  lemma CustomSummaryWithoutTip()
    ensures CustomShowsSummary(State(true, "10", "", "2"))
    ensures !BasicShowsSummary(State(false, "10", "", "2"))
  {
    assert ParseInt("2") == Some(2) by {
      assert DigitsValue("2") == 2 by {
        assert "2"[..0] == "";
      }
    }
  }

  /**
    Whenever a summary is shown the parsed number of people is positive, so
    the per-person amounts on screen split the tip and the total exactly
    (see `TipEngine.Calculate`) and are never the zero fallback.
   */
  lemma ShownSummaryHasPeople(s: State)
    requires ShowsSummary(s)
    ensures Parsed(s).numberOfPeople > 0
    ensures ParseInt(s.numberOfPeopleInput) == Some(Parsed(s).numberOfPeople)
  {
    if !s.isCustomUi {
      assert Parsed(s).numberOfPeople == ParseInt(s.numberOfPeopleInput).value;
    }
  }

  /** Two lines of a result block: the formatted tip and the formatted total. */
  datatype ResultText = ResultText(tip: string, total: string)

  /** What the result area shows: the summary block, and the per-person block inside it. */
  datatype Display = Display(summary: Option<ResultText>, perPerson: Option<ResultText>)

  /** The result area of the current UI, with amounts formatted by `format`. */
  function Render(s: State, format: real -> string): (d: Display)
    ensures !s.isCustomUi ==>
              (d.summary.Some? <==>
                 s.billInput != "" && s.tipPercentInput != "" && s.numberOfPeopleInput != ""
                 && Parsed(s).numberOfPeople > 0)
    ensures s.isCustomUi ==> (d.summary.Some? <==> s.billInput != "" && Parsed(s).numberOfPeople > 0)
    ensures d.perPerson.Some? <==> d.summary.Some? && Parsed(s).numberOfPeople > 1
    ensures d.summary.Some? ==> d.summary.value == ResultText(format(Results(s).tip), format(Results(s).total))
    ensures d.perPerson.Some? ==>
              d.perPerson.value == ResultText(format(Results(s).tipPerPerson), format(Results(s).totalPerPerson))
  {
    var c := Results(s);
    if ShowsSummary(s) then
      Display(Some(ResultText(format(c.tip), format(c.total))),
              if ShowsBreakdown(s) then Some(ResultText(format(c.tipPerPerson), format(c.totalPerPerson))) else None)
    else
      Display(None, None)
  }

  /**
    What is shown depends only on the mode, on which texts are empty and on
    the numbers the texts parse to: "2" and "02" people render alike.
   */
  lemma RenderDependsOnParsedValues(s: State, s': State, format: real -> string)
    requires s.isCustomUi == s'.isCustomUi
    requires (s.billInput == "") == (s'.billInput == "")
    requires (s.tipPercentInput == "") == (s'.tipPercentInput == "")
    requires Parsed(s) == Parsed(s')
    ensures Render(s, format) == Render(s', format)
  {
    var n, n' := s.numberOfPeopleInput, s'.numberOfPeopleInput;
    assert BasicShowsSummary(s) <==> BasicShowsSummary(s') by {
      BasicIsCustomPlusTip(s);
      BasicIsCustomPlusTip(s');
    }
    assert BasicShowsBreakdown(s) <==> BasicShowsBreakdown(s') by {
      BasicIsCustomPlusTip(s);
      BasicIsCustomPlusTip(s');
    }
  }
}

=== FILE: tip_engine.dfy ===
/**
  The calculation at the top of `TipCalculatorApp`: the three input texts are
  parsed with neutral defaults, and the tip, the total and the two per-person
  shares are derived from the parsed numbers. Kotlin's `Float` is replaced by
  `real`, so every identity below is exact.
 */
module TipEngine {
  import opened NumericText

  /** The numbers the app works with after parsing the three text fields. */
  datatype Inputs = Inputs(bill: real, tipPercent: real, numberOfPeople: int)

  /** The four derived amounts (`ResultCalculator` before currency formatting). */
  datatype Calculation = Calculation(tip: real, total: real, tipPerPerson: real, totalPerPerson: real)

  /**
    Parsing never fails: text that is a number gives that number, and text
    that is not becomes 0 for the bill, 0 for the tip percentage and 0 for the
    number of people.
   */
  function ParseInputs(billInput: string, tipPercentInput: string, numberOfPeopleInput: string): (i: Inputs)
    ensures ParseDecimal(billInput).None? ==> i.bill == 0.0
    ensures ParseDecimal(tipPercentInput).None? ==> i.tipPercent == 0.0
    ensures ParseInt(numberOfPeopleInput).None? ==> i.numberOfPeople == 0
    ensures ParseDecimal(billInput).Some? ==> i.bill == ParseDecimal(billInput).value
    ensures ParseDecimal(tipPercentInput).Some? ==> i.tipPercent == ParseDecimal(tipPercentInput).value
    ensures ParseInt(numberOfPeopleInput).Some? ==> i.numberOfPeople == ParseInt(numberOfPeopleInput).value
  {
    Inputs(ParseDecimal(billInput).GetOr(0.0),
           ParseDecimal(tipPercentInput).GetOr(0.0),
           ParseInt(numberOfPeopleInput).GetOr(0))
  }

  /**
    The tip is `tipPercent` hundredths of the bill, the total adds it to the
    bill, and a positive number of people splits both evenly; otherwise the
    per-person amounts are 0.
   */
  function Calculate(i: Inputs): (c: Calculation)
    ensures c.tip * 100.0 == i.bill * i.tipPercent
    ensures c.total == i.bill + c.tip
    ensures i.numberOfPeople <= 0 ==> c.tipPerPerson == 0.0 && c.totalPerPerson == 0.0
    ensures i.numberOfPeople > 0 ==> c.tipPerPerson * i.numberOfPeople as real == c.tip
    ensures i.numberOfPeople > 0 ==> c.totalPerPerson * i.numberOfPeople as real == c.total
  {
    var tip := i.bill * i.tipPercent / 100.0;
    var total := i.bill + tip;
    var people := i.numberOfPeople as real;
    Calculation(tip,
                total,
                if i.numberOfPeople > 0 then tip / people else 0.0,
                if i.numberOfPeople > 0 then total / people else 0.0)
  }

  /** With a non-negative bill and a percentage in [0, 100], the tip lies between 0 and the bill. */
  lemma TipWithinBill(i: Inputs)
    requires i.bill >= 0.0 && 0.0 <= i.tipPercent <= 100.0
    ensures 0.0 <= Calculate(i).tip <= i.bill
    ensures i.bill <= Calculate(i).total <= 2.0 * i.bill
  {
    var c := Calculate(i);
    assert i.bill * i.tipPercent <= i.bill * 100.0 by {
      assert i.bill * (100.0 - i.tipPercent) >= 0.0;
    }
    assert 0.0 <= i.bill * i.tipPercent;
  }

  /** Splitting among at least one person never gives anyone more than the whole amount. */
  lemma ShareAtMostWhole(i: Inputs)
    requires i.bill >= 0.0 && 0.0 <= i.tipPercent <= 100.0 && i.numberOfPeople >= 1
    ensures 0.0 <= Calculate(i).tipPerPerson <= Calculate(i).tip
    ensures 0.0 <= Calculate(i).totalPerPerson <= Calculate(i).total
  {
    var c := Calculate(i);
    var n := i.numberOfPeople as real;
    TipWithinBill(i);
    assert c.tipPerPerson == c.tip / n && c.totalPerPerson == c.total / n;
    assert c.tipPerPerson >= 0.0 && c.totalPerPerson >= 0.0;
    assert c.tip - c.tipPerPerson == c.tipPerPerson * (n - 1.0);
    assert c.total - c.totalPerPerson == c.totalPerPerson * (n - 1.0);
    ProductNonNegative(c.tipPerPerson, n - 1.0);
    ProductNonNegative(c.totalPerPerson, n - 1.0);
  }

  lemma ProductNonNegative(a: real, b: real)
    requires a >= 0.0 && b >= 0.0
    ensures a * b >= 0.0
  {
  }
}

=== FILE: tip_state.dfy ===
/**
  The state held by `TipCalculatorApp` and the edit handlers that change it.

  The app keeps four remembered values: the mode switch and the three input
  texts. Every user action runs one handler, which is modelled here as a pure
  function from the old state to the new one. In the basic UI the tip and
  people handlers are reject-and-revert validators (invalid text clears the
  field); in the custom UI they store the text of the slider's value.
 */
module TipState {
  import opened NumericText
  import TipEngine

  datatype State = State(
    isCustomUi: bool,
    billInput: string,
    tipPercentInput: string,
    numberOfPeopleInput: string)

  /** The remembered values on first composition: basic UI, empty fields, one person. */
  const Initial: State := State(false, "", "", "1")

  /** The numbers the current texts stand for, with the app's defaults. */
  function Parsed(s: State): (i: TipEngine.Inputs)
    ensures s.billInput == "" ==> i.bill == 0.0
    ensures s.tipPercentInput == "" ==> i.tipPercent == 0.0
    ensures s.numberOfPeopleInput == "" ==> i.numberOfPeople == 0
    ensures i.numberOfPeople != 0 ==> ParseInt(s.numberOfPeopleInput) == Some(i.numberOfPeople)
    ensures IsDigitsOnly(s.numberOfPeopleInput) ==> i.numberOfPeople >= 0
  {
    TipEngine.ParseInputs(s.billInput, s.tipPercentInput, s.numberOfPeopleInput)
  }

  // ---------------------------------------------------------------------------
  // Validators of the basic UI

  predicate IsPercent(v: real) {
    0.0 <= v <= 100.0
  }

  /** Text the basic tip field keeps: a number in [0, 100]. */
  predicate AcceptableTipPercent(text: string) {
    ParseDecimal(text).Some? && IsPercent(ParseDecimal(text).value)
  }

  /** Text the basic people field keeps: digits only, and a valid `Int`. */
  predicate AcceptablePeople(text: string) {
    IsDigitsOnly(text) && ParseInt(text).Some?
  }

  /** The basic tip-percentage validator: keep acceptable text, otherwise clear the field. */
  function ValidateTipPercent(text: string): (r: string)
    ensures r == text || r == ""
    ensures r != "" ==> AcceptableTipPercent(r)
    ensures AcceptableTipPercent(text) ==> r == text
  {
    if AcceptableTipPercent(text) then text else ""
  }

  /** The basic people validator: keep digits-only text that parses as an `Int`, otherwise clear. */
  function ValidatePeople(text: string): (r: string)
    ensures r == text || r == ""
    ensures r != "" ==> IsDigitsOnly(r) && ParseInt(r).Some? && ParseInt(r).value >= 0
    ensures AcceptablePeople(text) ==> r == text
  {
    if AcceptablePeople(text) then text else ""
  }

  /** Validating twice is the same as validating once. */
  lemma ValidatorsIdempotent(text: string)
    ensures ValidateTipPercent(ValidateTipPercent(text)) == ValidateTipPercent(text)
    ensures ValidatePeople(ValidatePeople(text)) == ValidatePeople(text)
  {
  }

  // ---------------------------------------------------------------------------
  // Handlers

  /** The mode switch flips the UI and leaves the three texts alone. */
  function ToggleMode(s: State): (t: State)
    ensures t.isCustomUi != s.isCustomUi
    ensures t.billInput == s.billInput
    ensures t.tipPercentInput == s.tipPercentInput
    ensures t.numberOfPeopleInput == s.numberOfPeopleInput
  {
    s.(isCustomUi := !s.isCustomUi)
  }

  lemma ToggleTwiceIsIdentity(s: State)
    ensures ToggleMode(ToggleMode(s)) == s
  {
  }

  /** Both UIs store the bill text verbatim; nothing else changes. */
  function BillChanged(s: State, text: string): (t: State)
    ensures t.billInput == text
    ensures t.isCustomUi == s.isCustomUi
    ensures t.tipPercentInput == s.tipPercentInput
    ensures t.numberOfPeopleInput == s.numberOfPeopleInput
  {
    s.(billInput := text)
  }

  /** Basic UI: the tip field keeps the edited text only when it is a percentage in [0, 100]. */
  function BasicTipPercentChanged(s: State, text: string): (t: State)
    ensures t.tipPercentInput == text || t.tipPercentInput == ""
    ensures t.tipPercentInput == text <==> text == "" || AcceptableTipPercent(text)
    ensures t == s.(tipPercentInput := t.tipPercentInput)
  {
    s.(tipPercentInput := ValidateTipPercent(text))
  }

  /** Basic UI: the people field keeps the edited text only when it is digits forming an `Int`. */
  function BasicPeopleChanged(s: State, text: string): (t: State)
    ensures t.numberOfPeopleInput == text || t.numberOfPeopleInput == ""
    ensures t.numberOfPeopleInput == text <==> text == "" || AcceptablePeople(text)
    ensures t == s.(numberOfPeopleInput := t.numberOfPeopleInput)
  {
    s.(numberOfPeopleInput := ValidatePeople(text))
  }

  /** Custom UI: the tip slider stores `Float.toString()` of its position, which reads back as that position. */
  function CustomTipPercentChanged(s: State, position: Decimal): (t: State)
    ensures ParseDecimal(t.tipPercentInput) == Some(position.Value())
    ensures Parsed(t).tipPercent == position.Value()
    ensures t == s.(tipPercentInput := t.tipPercentInput)
  {
    DecimalTextRoundTrip(position);
    s.(tipPercentInput := DecimalText(position))
  }

  /** Kotlin's `Float.toInt()` on a non-negative value: drop the fraction, saturate at `Int.MAX_VALUE`. */
  function SliderToInt(position: Decimal): (n: int)
    ensures 0 <= n <= IntMax
    ensures n < IntMax ==> n as real <= position.Value() < (n + 1) as real
    ensures n == IntMax ==> IntMax as real <= position.Value()
  {
    WholeBounds(position);
    if position.Whole() < IntMax then position.Whole() else IntMax
  }

  /** A people slider inside its range 0..10 yields at most ten people. */
  lemma SliderPeopleAtMostTen(position: Decimal)
    requires position.Value() <= 10.0
    ensures 0 <= SliderToInt(position) <= 10
  {
  }

  /** Custom UI: the people slider stores `toInt().toString()` of its position. */
  function CustomPeopleChanged(s: State, position: Decimal): (t: State)
    ensures IsDigitsOnly(t.numberOfPeopleInput)
    ensures ParseInt(t.numberOfPeopleInput) == Some(SliderToInt(position))
    ensures t == s.(numberOfPeopleInput := t.numberOfPeopleInput)
  {
    IntToStringRoundTrip(SliderToInt(position));
    s.(numberOfPeopleInput := IntToString(SliderToInt(position)))
  }

  // ---------------------------------------------------------------------------
  // Sessions

  /** One user action. Sliders report their position; text fields report the edited text. */
  datatype Event =
    | SwitchToggled
    | BillEdited(text: string)
    | TipPercentTyped(text: string)
    | PeopleTyped(text: string)
    | TipPercentSlid(position: Decimal)
    | PeopleSlid(position: Decimal)

  /**
    Applies one action. Typed tip and people edits come from the basic UI's
    text fields and slides from the custom UI's sliders; an action on a
    control the current mode does not show has no effect.
   */
  function Step(s: State, e: Event): (t: State)
    ensures t.isCustomUi == (s.isCustomUi != e.SwitchToggled?)
    ensures !e.BillEdited? ==> t.billInput == s.billInput
    ensures !(e.TipPercentTyped? || e.TipPercentSlid?) ==> t.tipPercentInput == s.tipPercentInput
    ensures !(e.PeopleTyped? || e.PeopleSlid?) ==> t.numberOfPeopleInput == s.numberOfPeopleInput
    ensures e.BillEdited? ==> t.billInput == e.text
    ensures e.TipPercentTyped? && !s.isCustomUi ==> t.tipPercentInput == ValidateTipPercent(e.text)
    ensures e.PeopleTyped? && !s.isCustomUi ==> t.numberOfPeopleInput == ValidatePeople(e.text)
    ensures e.TipPercentSlid? && s.isCustomUi ==> ParseDecimal(t.tipPercentInput) == Some(e.position.Value())
    ensures e.PeopleSlid? && s.isCustomUi ==> ParseInt(t.numberOfPeopleInput) == Some(SliderToInt(e.position))
    ensures (e.TipPercentTyped? || e.PeopleTyped?) && s.isCustomUi ==> t == s
    ensures (e.TipPercentSlid? || e.PeopleSlid?) && !s.isCustomUi ==> t == s
  {
    match e
    case SwitchToggled => ToggleMode(s)
    case BillEdited(text) => BillChanged(s, text)
    case TipPercentTyped(text) => if s.isCustomUi then s else BasicTipPercentChanged(s, text)
    case PeopleTyped(text) => if s.isCustomUi then s else BasicPeopleChanged(s, text)
    case TipPercentSlid(p) => if s.isCustomUi then CustomTipPercentChanged(s, p) else s
    case PeopleSlid(p) => if s.isCustomUi then CustomPeopleChanged(s, p) else s
  }

  /** Applies a sequence of actions, first to last. */
  function Run(s: State, events: seq<Event>): State
    decreases |events|
  {
    if |events| == 0 then s else Run(Step(s, events[0]), events[1..])
  }

  /** The tip slider covers 0..100 and the people slider 0..10. */
  predicate InSliderRange(e: Event) {
    match e
    case TipPercentSlid(p) => p.Value() <= 100.0
    case PeopleSlid(p) => p.Value() <= 10.0
    case _ => true
  }

  // ---------------------------------------------------------------------------
  // Invariants

  /** The stored people text is empty or digits that parse as an `Int`. */
  predicate PeopleTextValid(s: State) {
    s.numberOfPeopleInput == "" || AcceptablePeople(s.numberOfPeopleInput)
  }

  /** The stored tip text is empty or a percentage in [0, 100]. */
  predicate TipTextValid(s: State) {
    s.tipPercentInput == "" || AcceptableTipPercent(s.tipPercentInput)
  }

  lemma InitialValid()
    ensures PeopleTextValid(Initial) && TipTextValid(Initial)
  {
    assert ParseInt("1") == Some(1) by {
      assert DigitsValue("1") == 1 by {
        assert "1"[..0] == "";
      }
    }
  }

  lemma StepKeepsPeopleTextValid(s: State, e: Event)
    requires PeopleTextValid(s)
    ensures PeopleTextValid(Step(s, e))
  {
  }

  lemma StepKeepsTipTextValid(s: State, e: Event)
    requires TipTextValid(s) && InSliderRange(e)
    ensures TipTextValid(Step(s, e))
  {
  }

  /** Whatever the user does, the people text stays empty or unsigned digits. */
  lemma {:induction false} RunKeepsPeopleTextValid(s: State, events: seq<Event>)
    requires PeopleTextValid(s)
    ensures PeopleTextValid(Run(s, events))
    decreases |events|
  {
    if |events| > 0 {
      StepKeepsPeopleTextValid(s, events[0]);
      RunKeepsPeopleTextValid(Step(s, events[0]), events[1..]);
    }
  }

  /** With sliders in their ranges, the tip text stays empty or a percentage in [0, 100]. */
  lemma {:induction false} RunKeepsTipTextValid(s: State, events: seq<Event>)
    requires TipTextValid(s)
    requires forall i :: 0 <= i < |events| ==> InSliderRange(events[i])
    ensures TipTextValid(Run(s, events))
    decreases |events|
  {
    if |events| > 0 {
      StepKeepsTipTextValid(s, events[0]);
      RunKeepsTipTextValid(Step(s, events[0]), events[1..]);
    }
  }

  /**
    In every session that starts from the initial state, the parsed number of
    people is never negative and, with sliders in range, the parsed tip
    percentage lies in [0, 100].
   */
  lemma ReachableInputsInRange(events: seq<Event>)
    requires forall i :: 0 <= i < |events| ==> InSliderRange(events[i])
    ensures 0 <= Parsed(Run(Initial, events)).numberOfPeople
    ensures IsPercent(Parsed(Run(Initial, events)).tipPercent)
  {
    InitialValid();
    RunKeepsPeopleTextValid(Initial, events);
    RunKeepsTipTextValid(Initial, events);
  }

  /** In such a session a non-negative bill always yields 0 <= tip <= bill <= total. */
  lemma ReachableTipWithinBill(events: seq<Event>)
    requires forall i :: 0 <= i < |events| ==> InSliderRange(events[i])
    requires Parsed(Run(Initial, events)).bill >= 0.0
    ensures 0.0 <= TipEngine.Calculate(Parsed(Run(Initial, events))).tip <= Parsed(Run(Initial, events)).bill
    ensures Parsed(Run(Initial, events)).bill <= TipEngine.Calculate(Parsed(Run(Initial, events))).total
  {
    ReachableInputsInRange(events);
    TipEngine.TipWithinBill(Parsed(Run(Initial, events)));
  }
}
